=== FILE: README.md ===
# HTTP request layer of a Vue 3 admin scaffold, in Dafny

This project models the request layer of a browser admin application: the axios wrapper in `src/utils/http/axios.js`. It also models the navigation guard in `src/router/index.js` and the counter store in `src/stores/counter.js`. Everything is written as pure functions over immutable values. Mutable module state becomes explicit state that the functions take in and hand back: the pending-request map and the loading counter. Side effects become returned values: the visual loading calls, token removal and the redirect to the login page.

- `wrappers.dfy`: `Option`.
- `js_value.dfy` (`JsValue`): the JavaScript values the layer inspects. It defines truthiness, `||`, property reads and object spread, plus the decimal rendering used in messages and `includes`.
- `config.dfy` (`Config`): the default option table and `mergeConfig`.
- `pending.dfy` (`Pending`): request fingerprints and the pending-request registry (`addPending` / `removePending`). Also the request interceptor, which adds the bearer token.
- `loading.dfy` (`Loading`): the reference-counted loading indicator, and runs of interleaved acquire/release operations.
- `responses.dfy` (`Responses`): the success and error interceptors as classifiers. A success is accepted when one of the business-status tests holds, and its payload is unwrapped. A failure is a business error, an HTTP-status error (with the 401 session teardown) or a network error. A cancellation passes through.
- `facade.dfy` (`Facade`): what `request()` does to the options before dispatch (timeout, `Content-Type`, body encoding), the loading bracket around a request, and the options object each verb function builds.
- `router.dfy` (`Router`): the `beforeEach` guard.
- `counter_store.dfy` (`CounterStore`): the counter store.

`JSON.stringify` and `qs.stringify` are function-typed parameters with no interpretation. No lemma assumes the fingerprint is injective. `Pending.PendingKeyCollides` shows that it is not: an `&` in the url lets two different requests share one fingerprint.

The error interceptor's network branch is modelled as written. It first classifies the message ("timeout" gives the timeout text, "Network" the network text) and then overwrites the result with the raw `error.message`. `Responses.TimeoutClassificationDiscarded` proves that the classification never reaches the caller. The timeout override in `request()` is also modelled as written. It reads `customOptions.timeout`, which is `options.timeout` itself, and writes it back to the same place. `Facade.ApplyTimeout` proves that this step never changes the options.

The loading bracket in `request()` is modelled as written too. The `.catch` is chained after the `.then`, so a success handler that throws after releasing the indicator releases it a second time. `Facade.EndLoading` counts both releases. `Facade.ThrowingHandlerHidesEarly` shows the effect: the indicator disappears while another request still holds it.

## Model

| member | source | states |
|---|---|---|
| `Config.MergeConfig` | src/utils/http/axios.js:108-116 | A string yields the defaults with only `contentType` replaced. For an object, each key it mentions takes its value, the defaults it does not mention keep theirs, and unknown keys pass through. Any other value yields the defaults. Every default key is always present. |
| `Config.ShorthandIsContentTypeObject` | src/utils/http/axios.js:108-116 | The shorthand string `s` merges exactly like the object `{contentType: s}`. |
| `Config.MergeEmptyIsDefaults` | src/utils/http/axios.js:10-35 | Merging `{}` yields the default table. |
| `Config.MergeIdempotent` | src/utils/http/axios.js:108-116 | Merging an already merged configuration again changes nothing. |
| `Config.RequestFieldsAreNotOptions` | src/utils/http/axios.js:10-35 | No default option is named `data`, `headers`, `params`, `method` or `url`, so the default table never supplies the request's own fields. |
| `Pending.PendingKey` | src/utils/http/axios.js:123-126 | The fingerprint is the url, the method, the serialized params and the serialized body in that order, each segment at its place and separated by `&`; its length is the four parts' lengths plus three separators. Its partners are `Pending.PendingKeyDeterministic` (only these four parts matter) and `Pending.PendingKeyCollides` (the join is not injective). |
| `Pending.PendingKeyDeterministic` | src/utils/http/axios.js:123-126 | Two requests with equal url, method, params and body have the same fingerprint, whatever else differs. |
| `Pending.PendingKeyDistinguishesMethod` | src/utils/http/axios.js:123-126 | Requests to the same url with the same params and body but different methods get different fingerprints, so single-flight never cancels one for the other. |
| `Pending.PendingKeyCollides` | src/utils/http/axios.js:123-126 | Joining with `&` is not injective: two distinct requests can share one fingerprint. |
| `Pending.AddPending` | src/utils/http/axios.js:132-145 | A new fingerprint with no caller-supplied handle is registered under a fresh, live handle, which the request also gets. A caller-supplied handle means nothing is registered and nothing changes. A fingerprint already held leaves the registry unchanged and gives the request an already-cancelled handle. No other field of the request changes. |
| `Pending.RemovePending` | src/utils/http/axios.js:151-156 | Afterwards the fingerprint is absent, and every other entry is present exactly when it was before, with the same handle. |
| `Pending.RemovePendingIdempotent` | src/utils/http/axios.js:151-156 | Removing twice has the same effect as removing once. |
| `Pending.AddThenRemoveRestores` | src/utils/http/axios.js:132-156 | Registering a new fingerprint and then releasing it restores the original registry. |
| `Pending.SingleFlight` | src/utils/http/axios.js:132-145 | Take two requests with one fingerprint. The first gets a live, registered handle. The second gets a cancelled handle and leaves the first's entry in place. |
| `Pending.RequestInterceptor` | src/utils/http/axios.js:169-181 | The registry and the cancel handle come out as after `addPending`. A non-empty token adds `Authorization: Bearer <token>` to the headers and changes nothing else. A missing or empty token leaves the headers untouched. |
| `Loading.ShowLoading` | src/utils/http/axios.js:45-58 | The count always goes up by one. The indicator is shown exactly when the count was 0. It is shown with the given settings, or with `{}` when they are undefined (the parameter default). |
| `Loading.HideLoading` | src/utils/http/axios.js:63-76 | At 0 or below nothing happens. Otherwise the count goes down by one, and the indicator is hidden exactly when the count reaches 0. The count never becomes negative. |
| `Loading.ShowThenHideRestores` | src/utils/http/axios.js:45-76 | From a non-negative count, one show followed by one hide restores the count. |
| `Loading.RunInvariant` | src/utils/http/axios.js:37-76 | For any interleaving of acquires and releases from the initial state, the count stays non-negative. Show and hide calls strictly alternate, starting with show. The indicator is up exactly when the count is positive. |
| `Loading.RunAppend` | src/utils/http/axios.js:37-76 | Running two operation sequences one after the other gives the same count and calls as running their concatenation. |
| `Loading.AcquireBurst` | src/utils/http/axios.js:45-58 | `n` acquires raise the count by `n`, with one show call (with the defaulted settings) exactly when starting from 0. |
| `Loading.ReleaseBurst` | src/utils/http/axios.js:63-76 | `n` releases from a count of at least `n` lower it by `n`, with one hide call exactly when it reaches 0. |
| `Loading.BalancedBurst` | src/utils/http/axios.js:45-76 | `n > 0` acquires followed by `n` releases, from the initial state, return the count to 0 with exactly one show and one hide. |
| `Responses.BodyMessage` | src/utils/http/axios.js:208 | The result is the body's `message` when it is non-empty, otherwise `msg` when non-empty, otherwise nothing. A present result is never empty. |
| `Responses.OnFulfilled` | src/utils/http/axios.js:190-211 | The fingerprint is released in every case. The response is accepted iff `code === 200`, `code === 0`, `status === 200` or `success === true`. If accepted, it resolves with `data.data` when defined and otherwise with the whole body. If not, it rejects with `message`, else `msg`, else '请求失败'. |
| `Responses.StatusMessage` | src/utils/http/axios.js:248-255 | 400, 403, 404 and 500 give their fixed messages. Any other status gives `请求失败(<status in decimal>)`. The result is never empty. |
| `Responses.StatusMessageInjective` | src/utils/http/axios.js:248-255 | Distinct statuses get distinct messages, across the fixed table and the `请求失败(<status>)` template. |
| `Responses.HttpStatusFailure` | src/utils/http/axios.js:228-263 | 401 gives the session-expired message, removes the token, and redirects to `/login` with the current full path, unless the current path is already `/login`. Other statuses give the status message and have no side effects. A non-empty body `message`/`msg` overrides the message in every case. |
| `Responses.NetworkClassification` | src/utils/http/axios.js:266-270 | A message containing "timeout" classifies as '请求超时'. Otherwise, one containing "Network" classifies as '网络错误'. Any other message classifies as '请求失败，请稍后重试'. Its partner `Responses.TimeoutClassificationDiscarded` shows that the result never reaches the caller. |
| `Responses.NetworkFailure` | src/utils/http/axios.js:264-272 | A non-empty error message is surfaced verbatim. An empty one gives '请求失败，请稍后重试'. |
| `Responses.OnRejected` | src/utils/http/axios.js:212-275 | A cancellation is rejected unchanged, with the registry untouched and no side effects. Any other error releases its fingerprint when it carries a config (and otherwise leaves the registry alone). It is then rejected with a normalized error. The message comes from the status branch when there is a response, and from the network branch otherwise. |
| `Responses.NormalizedMessagesNonEmpty` | src/utils/http/axios.js:207-274 | Every normalized rejection from either interceptor carries a non-empty message. |
| `Responses.TimeoutClassificationDiscarded` | src/utils/http/axios.js:264-272 | A message containing "timeout" is classified as a timeout, yet the caller receives the raw message, which is not the timeout text. |
| `Responses.NotFoundMessage` | src/utils/http/axios.js:248-255 | A 404 without a body message rejects with '请求的资源不存在' and has no side effects. |
| `Responses.SettlementReleasesFingerprint` | src/utils/http/axios.js:190-220 | After success, business error or HTTP/network error, the fingerprint of the config the callback receives is absent from the registry. |
| `Responses.SingleFlightLifecycle` | src/utils/http/axios.js:132-220 | Take an original request and an identical duplicate. The duplicate is cancelled and its settlement leaves the original's entry. If the original settles with a config that fingerprints like the registered one, its settlement restores the starting registry and a retry is admitted with a live handle. |
| `Responses.ReleaseUnderOtherKeyLeaksEntry` | src/utils/http/axios.js:123-156 | If the config handed to the success callback fingerprints differently from the registered one, the original's entry stays with its live handle. Every later identical request is then cancelled as a duplicate. |
| `Facade.RequestedContentType` | src/utils/http/axios.js:286 | The content type used is the option's own value when that is truthy, and `application/json` otherwise. It is always truthy. |
| `Facade.ApplyTimeout` | src/utils/http/axios.js:298-301 | The timeout step returns the options unchanged in every case. |
| `Facade.EncodingFor` | src/utils/http/axios.js:313-322 | Form encoding is chosen exactly for `form` and the urlencoded type. Multipart is chosen exactly for `multipart` and `multipart/form-data`. Any other value is sent as the header itself. |
| `Facade.ShapeBody` | src/utils/http/axios.js:303-323 | A falsy body leaves the options untouched. A truthy body with a truthy non-object `headers` throws. Otherwise the header is set by the content type and the body is form-encoded only for the urlencoded choice. The caller's other headers and all other options are kept. |
| `Facade.PrepareRequest` | src/utils/http/axios.js:298-323 | The options dispatched are those of the body shaping, and the dispatched timeout is the caller's own. |
| `Facade.BeginLoading` | src/utils/http/axios.js:325-328 | The loading indicator is acquired, with the `loading` settings, exactly when `showLoading` is truthy. |
| `Facade.EndLoading` | src/utils/http/axios.js:336-355 | Settlement calls `hideLoading()` once when `showLoading` is truthy. It calls it a second time when the success handler throws into the chained `.catch`: a success message (`ElMessage` is unbound) or a throwing `afterRequest`. The count falls by the number of releases but never below 0, and the indicator is hidden exactly when the count reaches 0. |
| `Facade.RequestLoadingBalanced` | src/utils/http/axios.js:325-355 | If its success handler does not throw, a single request's start and settlement restore the count. If it throws, the request releases one holder too many. When it is the only request, there is exactly one show and one hide; with `showLoading` off there are no calls. |
| `Facade.ThrowingHandlerHidesEarly` | src/utils/http/axios.js:325-355 | Two requests hold the indicator and the first one's success handler throws. The indicator is hidden while the second is still pending, and the second's settlement finds nothing to release. |
| `Facade.UploadConfig` | src/utils/http/axios.js:515-520 | Corrected merge (see Findings). Loading is on and the content type is multipart unless the caller's config overrides them, key by key. Every key of the config passes through. Every other default option keeps its value from the default table. The keys are the defaults plus the config's own. A string config names the content type. |
| `Facade.UploadConfigAsWritten` | src/utils/http/axios.js:515-520 | `upload`'s merge as the program does it. For an object or an omitted config it agrees with the corrected merge. For a string config the content type stays multipart, loading stays on, and every other option of the default table keeps its default value. |
| `Facade.UploadStringBecomesIndexOptions` | src/utils/http/axios.js:515-520 | As written, a string config reaches `request()` as one option per character, named "0", "1", ..., beside the default table. |
| `Facade.UploadShorthandLost` | src/utils/http/axios.js:515-520 | As written, `upload(url, file, 'form')` still sends multipart and gains a stray option "0". |
| `Facade.UploadShorthandHonoured` | src/utils/http/axios.js:515-520 | In the corrected merge, a string config becomes the upload's content type. Loading stays on, and no index-keyed option such as "0" appears. |
| `Facade.VerbConfig` | src/utils/http/axios.js:378-527 | `get`/`postAuto`/`put`/`delete` use the plain merge, and `upload` uses its as-written merge. `post` keeps the merged content type when it is truthy and uses `application/json` otherwise. `postForm` forces the urlencoded type. For both `post` and `postForm`, every other key is the plain merge's. Every default key is present. |
| `Facade.Assemble` | src/utils/http/axios.js:378-527 | Each verb function builds method, url and payload (`params` for GET/DELETE, `data` otherwise). The merged config is spread over them and wins on every key it has. Nothing else is added. |
| `Facade.VerbOptions` | src/utils/http/axios.js:378-527 | A verb function reads an omitted config as `{}` and calls `request()` with the assembled options, which carry every default option. Its partners `Facade.PostDefaultsToJson` and `Facade.UploadSendsMultipart` follow an omitted config through to the dispatched request. |
| `Facade.ShapeFreshBody` | src/utils/http/axios.js:303-323 | A body request with a truthy body and no `headers` option is dispatched with the body encoded by its content type. Its headers object holds only that content type, and every merged option is dispatched unchanged. |
| `Facade.PostFormEncodesBody` | src/utils/http/axios.js:421-432 | `postForm` with a truthy body sends `qs.stringify(data)` under the urlencoded header. |
| `Facade.PostDefaultsToJson` | src/utils/http/axios.js:397-412 | `post` with the default config sends the body unchanged under `application/json`. |
| `Facade.UploadSendsMultipart` | src/utils/http/axios.js:498-527 | `upload` with the default config sends the body unchanged under the multipart header, with loading on. |
| `Facade.GetIsNotShaped` | src/utils/http/axios.js:378-388 | `get` without a `data` option is dispatched with exactly the options it built. |
| `Router.PageTitle` | src/router/index.js:15 | A non-empty page title gives `<title> - 管理系统`. Otherwise the title is '管理系统'. |
| `Router.BeforeEach` | src/router/index.js:13-30 | The guard proceeds iff the route does not require auth or a non-empty token is present. Otherwise it redirects to `/login` with `redirect` set to the target's full path. Exactly one `next` decision is made. |
| `Router.TitleNamesApplication` | src/router/index.js:15 | Every title ends with the application name, and a page title can be read back from its front. |
| `Router.OpenPagesAlwaysProceed` | src/router/index.js:27-29 | Without `requiresAuth` the guard proceeds, and its decision does not depend on the token. |
| `Router.EmptyTokenRedirects` | src/router/index.js:18-26 | On a protected route an empty token acts like no token and redirects to login with the return path. |
| `CounterStore.DoubleCount` | src/stores/counter.js:9 | The getter's value is even, and half of it is the count. Its partner `CounterStore.RunCounts` gives it after any run of actions. |
| `CounterStore.Increment` | src/stores/counter.js:12-14 | `count` goes up by one and `name` is unchanged. |
| `CounterStore.Decrement` | src/stores/counter.js:15-17 | `count` goes down by one with no lower bound, and `name` is unchanged. |
| `CounterStore.IncrementDecrementInverse` | src/stores/counter.js:12-17 | Increment and decrement undo each other in either order. |
| `CounterStore.CountMayGoNegative` | src/stores/counter.js:4-17 | From the initial state (`count` 0, `name` '计数器'), one decrement gives count -1 and doubled count -2. |
| `CounterStore.RunCounts` | src/stores/counter.js:9-17 | After any run of actions, the count is the start plus increments minus decrements, the name is unchanged, and `doubleCount` is twice the count. |

## Left out

- The axios instance, interceptor registration, the transport and promise chaining are left out. Each interceptor is a function from its input to the settlement, the new registry and the side effects it would perform.
- The request interceptor's error callback (it logs and rethrows) is left out.
- The link between `request()`'s options and the config the interceptors see belongs to axios and is left out.
- Between registration and release, axios replaces `config.data` with the serialized body, and the model does not compute that serialization. It leaves the config the callbacks receive as an input.
- Responses.SingleFlightLifecycle: holds only when the config handed back at settlement has the registered fingerprint. That is true for no body, a form-encoded string or `FormData`. For a JSON object body (the default for `post`, `put` and `postAuto`), axios hands back the JSON text. Its fingerprint differs, so the entry is never released and every later identical request is cancelled. `Responses.ReleaseUnderOtherKeyLeaksEntry` states that case.
- Axios lowercases the method before the interceptors run. The fingerprint uses whatever method the config holds.
- `JSON.stringify` and `qs.stringify` are uninterpreted parameters. Their output, and `JSON.stringify(undefined)` becoming an empty join segment, are not modelled.
- The `CancelToken` mechanics are left out. A handle is an identity plus a cancelled flag, and the identity of a newly built handle is a parameter.
- The console logging is left out.
- The notifications made by `showErrorMessage` / `showSuccessMessage` are left out, and so are the `showError`, `silent` and `errorMsg` flags that choose them. `ElMessage` is not imported in the source, so a success notification throws. The model keeps that consequence: `showSuccess` with a `successMsg` makes the success handler throw, and `Facade.EndLoading` releases the loading indicator a second time.
- The error notification throws too. With the default `showError: true` and `silent: false`, the `.catch` of `request()` calls `showErrorMessage`, which reaches the unbound `ElMessage.error`. Every failed request, a duplicate cancellation included, then rejects its caller with that `ReferenceError`. `Responses.Rejection` describes what the interceptor settles `axiosInstance(options)` with, not what the caller of `request()` finally sees.
- `beforeRequest` / `afterRequest` are arbitrary caller callbacks, so they are left out.
- `retryCount` is declared as an option but never read.
- `upload` builds its `FormData` from a `File` or an object's keys. These are browser objects; only its configuration defaults are modelled.
- Facade.ShapeBody: returns a new options map. The source writes the `Content-Type` header into the caller's own `headers` object, because the verb functions spread it shallowly. A caller who reuses that object carries the header into later calls, and the model does not show this.
- Numbers are integers. Floating point, `NaN` and precision beyond 2^53 (which matters to the counter store) are not modelled. Arrays are not distinguished from plain objects.
- Strings are sequences of Unicode scalar values. JavaScript's `{...str}` copies UTF-16 code units, so a shorthand string outside the Basic Multilingual Plane spreads into more index keys in the program than `JsValue.Spread` gives.
- `Responses.Body` models `message` and `msg` as optional strings. Non-string values there, and a response body that is not an object (a `null` body makes the success callback throw), are not modelled.
- `Responses.ErrorResponse` models the HTTP status as a non-negative integer.
- `isString` from `src/utils/is` is not part of this model. It is taken to test for a primitive string.
- The route table, the `document.title` assignment and `localStorage` are left out. The guard returns the title, and the token is an input.
- The guard's page title is an optional string. A non-string `meta.title` is not modelled.
- `src/main.js` only bootstraps the application, so it is left out.

## Findings

| source | as written | input that shows it | evidently intended | confidence | as-written member | corrected member |
|---|---|---|---|---|---|---|
| src/utils/http/axios.js:516-520 | `upload` spreads the caller's config into an object literal before `mergeConfig` tests for a string. A shorthand string is split into keys "0", "1", ..., and the content type stays multipart. | `upload(url, file, 'form')` | The config of `upload` is documented as an object or a content-type string, like every other verb's. A string should set `contentType`. | medium; not executed | `Facade.UploadShorthandLost` | `Facade.UploadShorthandHonoured` |

The facade's `upload` (`Facade.VerbConfig`) models the program as written, with `Facade.UploadConfigAsWritten`. `Facade.UploadConfig` is the corrected merge. The two agree on every config except a string.

=== FILE: config.dfy ===
/**
  The option table every request starts from (`defaultConfig`) and the merge
  of a caller's options over it (`mergeConfig`). Options are plain objects,
  so they are maps from property name to value; keys the table does not
  know are carried along untouched.
 */
module Config {
  import opened JsValue

  const DefaultContentType: string := "application/json"
  const DefaultTimeout: int := 10000

  /** The loading overlay's text and backdrop. */
  const DefaultLoading: Value :=
    Obj(map["text" := Str("加载中..."), "background" := Str("rgba(0, 0, 0, 0.7)")])

  /** `defaultConfig`: one entry per recognised option. */
  const Defaults: map<string, Value> := map[
    "contentType" := Str(DefaultContentType),
    "showLoading" := Bool(false),
    "loading" := DefaultLoading,
    "showError" := Bool(true),
    "silent" := Bool(false),
    "showSuccess" := Bool(false),
    "successMsg" := Str(""),
    "errorMsg" := Str(""),
    "retryCount" := Num(0),
    "timeout" := Num(DefaultTimeout)
  ]

  /** `mergeConfig(options)`: a string is a content-type shorthand; an object
      is spread over the defaults; anything else spreads into nothing and
      leaves the defaults as they are. */
  function MergeConfig(options: Value): (r: map<string, Value>)
    ensures options.Str? ==> r == Defaults["contentType" := options]
    ensures options.Obj? ==> r.Keys == Defaults.Keys + options.fields.Keys
    ensures options.Obj? ==> forall k :: k in options.fields ==> r[k] == options.fields[k]
    ensures options.Obj? ==> forall k :: k in Defaults && k !in options.fields ==> r[k] == Defaults[k]
    ensures !options.Str? && !options.Obj? ==> r == Defaults
    ensures Defaults.Keys <= r.Keys
  {
    if options.Str? then Defaults["contentType" := options]
    else Defaults + Spread(options)
  }

  /** A shorthand string means the same as an object naming only the content type. */
  lemma ShorthandIsContentTypeObject(s: string)
    ensures MergeConfig(Str(s)) == MergeConfig(Obj(map["contentType" := Str(s)]))
  {
  }

  /** Merging an empty override yields the defaults. */
  lemma MergeEmptyIsDefaults()
    ensures MergeConfig(Obj(map[])) == Defaults
  {
  }

  /** Merging an already merged configuration changes nothing. */
  lemma MergeIdempotent(options: Value)
    ensures MergeConfig(Obj(MergeConfig(options))) == MergeConfig(options)
  {
  }

  /** The request's own properties are not options, so the default table
      never supplies them. */
  lemma RequestFieldsAreNotOptions()
    ensures "data" !in Defaults && "headers" !in Defaults && "params" !in Defaults
    ensures "method" !in Defaults && "url" !in Defaults
  {
    assert "headers"[0] != "loading"[0] && "headers"[0] != "timeout"[0];
    assert "params"[0] != "silent"[0] && "method"[0] != "silent"[0];
  }
}

=== FILE: counter_store.dfy ===
/**
  The example counter store: a count with a name, a doubled-count getter,
  and actions that step the count up or down without bound.
 */
module CounterStore {

  datatype State = State(count: int, name: string)

  /** The store's initial state. */
  const Initial: State := State(0, "计数器")

  /** The `doubleCount` getter: always even, and half of it is the count. */
  function DoubleCount(s: State): (d: int)
    ensures d % 2 == 0
    ensures d / 2 == s.count
  {
    s.count * 2
  }

  /** `increment`: one up, the name untouched. */
  function Increment(s: State): (r: State)
    ensures r.count == s.count + 1
    ensures r.name == s.name
  {
    s.(count := s.count + 1)
  }

  /** `decrement`: one down, with no floor, the name untouched. */
  function Decrement(s: State): (r: State)
    ensures r.count == s.count - 1
    ensures r.name == s.name
  {
    s.(count := s.count - 1)
  }

  /** The two actions undo each other, in either order. */
  lemma IncrementDecrementInverse(s: State)
    ensures Decrement(Increment(s)) == s
    ensures Increment(Decrement(s)) == s
  {
  }

  /** Nothing stops the count at zero: one decrement from the start makes it
      negative. */
  lemma CountMayGoNegative()
    ensures Decrement(Initial).count == -1
    ensures DoubleCount(Decrement(Initial)) == -2
  {
  }

  datatype Action = Inc | Dec

  function Apply(s: State, a: Action): State {
    match a
    case Inc => Increment(s)
    case Dec => Decrement(s)
  }

  function Run(s: State, actions: seq<Action>): State
    decreases |actions|
  {
    if |actions| == 0 then s else Run(Apply(s, actions[0]), actions[1..])
  }

  function CountOf(actions: seq<Action>, a: Action): nat
    decreases |actions|
  {
    if |actions| == 0 then 0
    else (if actions[0] == a then 1 else 0) + CountOf(actions[1..], a)
  }

  /** After any run of actions the count is the number of increments less
      the number of decrements, the name is unchanged, and the getter is
      twice that count. */
  lemma {:induction false} RunCounts(s: State, actions: seq<Action>)
    ensures Run(s, actions).count == s.count + CountOf(actions, Inc) - CountOf(actions, Dec)
    ensures Run(s, actions).name == s.name
    ensures DoubleCount(Run(s, actions)) == 2 * (s.count + CountOf(actions, Inc) - CountOf(actions, Dec))
    decreases |actions|
  {
    if |actions| > 0 {
      RunCounts(Apply(s, actions[0]), actions[1..]);
    }
  }
}

=== FILE: facade.dfy ===
/**
  The public request functions and the shaping `request()` applies before it
  hands the options to the transport: the timeout override, the choice of
  `Content-Type` and the encoding of the body. Options are the plain object
  the verb functions build, a map from property name to value.
 */
module Facade {
  import opened JsValue
  import opened Wrappers
  import opened Config
  import Loading

  /** `qs.stringify`, left uninterpreted. */
  type FormEncoder = Value -> string

  type Options = map<string, Value>

  const FormContentType: string := "application/x-www-form-urlencoded"
  const MultipartContentType: string := "multipart/form-data"

  /** `customOptions.contentType`: the requested content type, or JSON when
      none (or an empty one) is given. */
  function RequestedContentType(options: Options): (ct: Value)
    ensures Truthy(ct)
    ensures Truthy(Get(options, "contentType")) ==> ct == options["contentType"]
    ensures !Truthy(Get(options, "contentType")) ==> ct == Str(DefaultContentType)
  {
    Or(Get(options, "contentType"), Str(DefaultContentType))
  }

  /** The timeout override: the option is written back only when it is set
      and differs from the default. Since it is read from the very options it
      is written to, the step never changes them. */
  function ApplyTimeout(options: Options): (r: Options)
    ensures r == options
  {
    var t := Get(options, "timeout");
    if Truthy(t) && t != Num(DefaultTimeout) then options["timeout" := t] else options
  }

  /** How a body is sent, by the requested content type. */
  datatype Encoding = UrlEncoded | Multipart | AsRequested(contentType: Value)

  function EncodingFor(ct: Value): (e: Encoding)
    ensures e.UrlEncoded? <==> ct in {Str("form"), Str(FormContentType)}
    ensures e.Multipart? <==> ct in {Str("multipart"), Str(MultipartContentType)}
    ensures e.AsRequested? ==> e.contentType == ct
  {
    if ct == Str("form") || ct == Str(FormContentType) then UrlEncoded
    else if ct == Str("multipart") || ct == Str(MultipartContentType) then Multipart
    else AsRequested(ct)
  }

  /** The `Content-Type` header an encoding sends. */
  function HeaderFor(e: Encoding): Value {
    match e
    case UrlEncoded => Str(FormContentType)
    case Multipart => Str(MultipartContentType)
    case AsRequested(ct) => ct
  }

  /** The body as sent: form encoding serialises it, the others leave it. */
  function EncodeBody(e: Encoding, data: Value, qs: FormEncoder): Value {
    if e.UrlEncoded? then Str(qs(data)) else data
  }

  /** The headers object the shaping writes into: the caller's own object, or
      a fresh empty one in place of a falsy value. */
  function HeadersOf(options: Options): map<string, Value> {
    var h := Get(options, "headers");
    if h.Obj? then h.fields else map[]
  }

  /** Body and header shaping. A falsy body leaves the options untouched.
      Otherwise the header is set and the body encoded by the content type;
      a truthy `headers` that is not an object makes the property write throw
      (module code is strict), which is `None` here. */
  function ShapeBody(options: Options, qs: FormEncoder): (r: Option<Options>)
    ensures !Truthy(Get(options, "data")) ==> r == Some(options)
    ensures Truthy(Get(options, "data")) && Truthy(Get(options, "headers")) && !Get(options, "headers").Obj?
            ==> r.None?
    ensures Truthy(Get(options, "data")) && (!Truthy(Get(options, "headers")) || Get(options, "headers").Obj?) ==>
              var e := EncodingFor(RequestedContentType(options));
              && r.Some?
              && r.value.Keys == options.Keys + {"data", "headers"}
              && r.value["data"] == EncodeBody(e, options["data"], qs)
              && r.value["headers"] == Obj(HeadersOf(options)["Content-Type" := HeaderFor(e)])
              && (forall k :: k in options && k != "data" && k != "headers" ==> r.value[k] == options[k])
  {
    var data := Get(options, "data");
    if !Truthy(data) then Some(options)
    else
      var h := Get(options, "headers");
      if Truthy(h) && !h.Obj? then None
      else
        var e := EncodingFor(RequestedContentType(options));
        Some(options["data" := EncodeBody(e, data, qs)]["headers" := Obj(HeadersOf(options)["Content-Type" := HeaderFor(e)])])
  }

  /** What `request()` hands to the transport. */
  function PrepareRequest(options: Options, qs: FormEncoder): (r: Option<Options>)
    ensures r == ShapeBody(options, qs)
    ensures r.Some? ==> Get(r.value, "timeout") == Get(options, "timeout")
  {
    ShapeBody(ApplyTimeout(options), qs)
  }

  /** The loading indicator at the start of `request()`: acquired only when
      the options ask for it, with the options' `loading` settings (`{}` when
      there are none). */
  function BeginLoading(c: Loading.Counter, options: Options): (r: Loading.Step)
    ensures Truthy(Get(options, "showLoading")) ==> r == Loading.ShowLoading(c, Get(options, "loading"))
    ensures !Truthy(Get(options, "showLoading")) ==> r == Loading.Step(c, [])
  {
    if Truthy(Get(options, "showLoading")) then Loading.ShowLoading(c, Get(options, "loading"))
    else Loading.Step(c, [])
  }

  /** How the transport's promise settles, as `request()`'s handlers see it:
      rejected, or fulfilled, with whether the caller's `afterRequest` throws
      (or returns a rejected promise). */
  datatype Outcome = Failed | Succeeded(afterRequestThrows: bool)

  /** The success handler throws after it has released the indicator, so the
      chained error handler runs as well. It throws when it shows a success
      message, because `ElMessage` is not bound in the module, or when
      `afterRequest` throws. */
  predicate HandlerThrows(options: Options, outcome: Outcome) {
    && outcome.Succeeded?
    && ((Truthy(Get(options, "showSuccess")) && Truthy(Get(options, "successMsg"))) || outcome.afterRequestThrows)
  }

  /** How many times the settlement calls `hideLoading()`: never without
      `showLoading`, once on the error path or a clean success, and twice when
      the success handler throws into the error handler. */
  function Releases(options: Options, outcome: Outcome): nat {
    if !Truthy(Get(options, "showLoading")) then 0
    else if HandlerThrows(options, outcome) then 2
    else 1
  }

  /** The loading indicator when the request settles. */
  function EndLoading(c: Loading.Counter, options: Options, outcome: Outcome): (r: Loading.Step)
    ensures c.count <= 0 ==> r == Loading.Step(c, [])
    ensures c.count >= Releases(options, outcome) ==> r.counter.count == c.count - Releases(options, outcome)
    ensures 0 <= c.count <= Releases(options, outcome) ==> r.counter.count == 0
    ensures r.events == [] || r.events == [Loading.HideIndicator]
    ensures r.events == [Loading.HideIndicator] <==> 0 < c.count <= Releases(options, outcome)
  {
    if !Truthy(Get(options, "showLoading")) then Loading.Step(c, [])
    else
      var first := Loading.HideLoading(c);
      if HandlerThrows(options, outcome) then
        var second := Loading.HideLoading(first.counter);
        Loading.Step(second.counter, first.events + second.events)
      else first
  }

  /** A request on its own, from start to settlement: unless its success
      handler throws, it leaves the counter as it found it, and if it was the
      only one it shows and then hides the indicator. A throwing handler
      releases one holder too many. */
  lemma RequestLoadingBalanced(c: Loading.Counter, options: Options, outcome: Outcome)
    requires c.count >= 0
    ensures var begin := BeginLoading(c, options);
            var end := EndLoading(begin.counter, options, outcome);
            && (!HandlerThrows(options, outcome) || !Truthy(Get(options, "showLoading")) ==> end.counter == c)
            && (HandlerThrows(options, outcome) && Truthy(Get(options, "showLoading")) ==>
                  end.counter.count == if c.count == 0 then 0 else c.count - 1)
            && (c.count == 0 && Truthy(Get(options, "showLoading")) ==>
                  begin.events + end.events == [Loading.ShowIndicator(Loading.Shown(Get(options, "loading"))), Loading.HideIndicator])
            && (!Truthy(Get(options, "showLoading")) ==> begin.events + end.events == [])
  {
  }

  /** Two requests with the loading indicator in flight: when the first one's
      success handler throws, the indicator is hidden while the second is
      still pending, and the second's settlement finds nothing to release. */
  lemma ThrowingHandlerHidesEarly(first: Options, second: Options, outcome: Outcome, later: Outcome)
    requires Truthy(Get(first, "showLoading")) && Truthy(Get(second, "showLoading"))
    requires HandlerThrows(first, outcome)
    ensures var b1 := BeginLoading(Loading.Initial, first);
            var b2 := BeginLoading(b1.counter, second);
            var e1 := EndLoading(b2.counter, first, outcome);
            var e2 := EndLoading(e1.counter, second, later);
            && b2.counter.count == 2
            && e1.counter.count == 0 && e1.events == [Loading.HideIndicator]
            && e2 == Loading.Step(Loading.Initial, [])
  {
  }

  /** The public functions of the request module. */
  datatype Verb = GetVerb | PostVerb | PostFormVerb | PostAutoVerb | PutVerb | DeleteVerb | UploadVerb

  /** The defaults `upload` puts under the caller's config. */
  const UploadDefaults: map<string, Value> :=
    map["showLoading" := Bool(true), "contentType" := Str(MultipartContentType)]

  /** Every option `upload` defaults is one the default table knows. */
  lemma UploadDefaultsAreOptions()
    ensures UploadDefaults.Keys <= Defaults.Keys
  {
  }

  /** `upload`'s merge as written: the caller's config is spread into an
      object literal before `mergeConfig` sees it, so a shorthand string
      arrives as its characters under "0", "1", ... and not as a content type. */
  function UploadConfigAsWritten(config: Value): (r: Options)
    ensures !config.Str? ==> r == UploadConfig(config)
    ensures config.Str? ==> Get(r, "contentType") == Str(MultipartContentType) && Get(r, "showLoading") == Bool(true)
    ensures config.Str? ==> forall k :: k in Defaults && k !in UploadDefaults ==> Get(r, k) == Defaults[k]
  {
    if config.Str? then
      StringSpreadKeepsUploadDefaults(config.s);
      MergeConfig(Obj(UploadDefaults + Spread(config)))
    else
      NonStringSpreadIsOverrides(config);
      MergeConfig(Obj(UploadDefaults + Spread(config)))
  }

  /** For an object or a non-string primitive, spreading the config over the
      upload defaults merges to the corrected reading. */
  lemma NonStringSpreadIsOverrides(config: Value)
    requires !config.Str?
    ensures MergeConfig(Obj(UploadDefaults + Spread(config))) == UploadConfig(config)
  {
    NonStringOverrides(config);
  }

  /** Spreading an object or a non-string primitive over the upload defaults
      builds the corrected overrides. */
  lemma NonStringOverrides(config: Value)
    requires !config.Str?
    ensures UploadDefaults + Spread(config) == UploadOverrides(config)
  {
    if !config.Obj? {
      assert UploadDefaults + map[] == UploadDefaults;
    }
  }

  /** A spread string adds only index keys, so the upload defaults survive
      the merge beside them. */
  lemma StringSpreadKeepsUploadDefaults(s: string)
    ensures var r := MergeConfig(Obj(UploadDefaults + Spread(Str(s))));
            && Get(r, "contentType") == Str(MultipartContentType)
            && Get(r, "showLoading") == Bool(true)
            && forall k :: k in Defaults && k !in UploadDefaults ==> Get(r, k) == Defaults[k]
  {
    var spread := Spread(Str(s));
    DefaultsAreNotIndices(s);
    assert "contentType" !in spread && "showLoading" !in spread by {
      assert !IsDigit("contentType"[0]) && !IsDigit("showLoading"[0]);
    }
    assert "showLoading"[0] != "contentType"[0];
    var overrides := UploadDefaults + spread;
    assert overrides["contentType"] == Str(MultipartContentType) && overrides["showLoading"] == Bool(true);
  }

  /** No option of the default table is an index key of a spread string. */
  lemma DefaultsAreNotIndices(s: string)
    ensures forall k :: k in Defaults ==> k !in Spread(Str(s))
  {
    forall k | k in Defaults
      ensures k !in Spread(Str(s))
    {
      assert !IsDigit(k[0]);
    }
  }

  /** As written, a string config reaches `request()` as options named "0",
      "1", ..., one per character, beside the default table. */
  lemma UploadStringBecomesIndexOptions(s: string)
    ensures var r := UploadConfigAsWritten(Str(s));
            && r.Keys == Defaults.Keys + Spread(Str(s)).Keys
            && forall i :: 0 <= i < |s| ==> Get(r, NatToString(i)) == Str([s[i]])
  {
    var overrides := UploadDefaults + Spread(Str(s));
    StringOverrides(s);
    var r := MergeConfig(Obj(overrides));
    assert UploadConfigAsWritten(Str(s)) == r;
    assert r.Keys == Defaults.Keys + overrides.Keys;
    assert forall k :: k in overrides ==> r[k] == overrides[k];
  }

  /** The object a string config makes of the upload defaults: the defaults
      and the string's characters under their indices. */
  lemma StringOverrides(s: string)
    ensures var overrides := UploadDefaults + Spread(Str(s));
            && Defaults.Keys + overrides.Keys == Defaults.Keys + Spread(Str(s)).Keys
            && forall i :: 0 <= i < |s| ==> NatToString(i) in overrides && overrides[NatToString(i)] == Str([s[i]])
  {
    UploadDefaultsAreOptions();
    SpreadStringIndices(s);
  }

  /** The object `upload` hands to `mergeConfig`, with a shorthand string
      read as `{contentType: <string>}`. */
  function UploadOverrides(config: Value): (m: map<string, Value>)
    ensures config.Str? ==> m == UploadDefaults["contentType" := config]
    ensures config.Obj? ==> m == UploadDefaults + config.fields
    ensures !config.Str? && !config.Obj? ==> m == UploadDefaults
  {
    if config.Str? then UploadDefaults["contentType" := config]
    else if config.Obj? then UploadDefaults + config.fields
    else UploadDefaults
  }

  /** `upload`'s merge with the shorthand honoured, as for every other verb:
      loading is on and the body is multipart unless the caller's config
      says otherwise, and a string config names the content type. */
  function UploadConfig(config: Value): (r: Options)
    ensures "contentType" in r && "showLoading" in r
    ensures r["contentType"] ==
              if config.Str? then config
              else if config.Obj? && "contentType" in config.fields then config.fields["contentType"]
              else Str(MultipartContentType)
    ensures r["showLoading"] ==
              if config.Obj? && "showLoading" in config.fields then config.fields["showLoading"]
              else Bool(true)
    ensures r.Keys == Defaults.Keys + (if config.Obj? then config.fields.Keys else {})
    ensures config.Obj? ==> forall k :: k in config.fields ==> r[k] == config.fields[k]
    ensures forall k :: k in Defaults && k !in UploadDefaults && !(config.Obj? && k in config.fields) ==> r[k] == Defaults[k]
  {
    var overrides := UploadOverrides(config);
    assert overrides.Keys == UploadDefaults.Keys + (if config.Obj? then config.fields.Keys else {});
    UploadDefaultsAreOptions();
    MergeConfig(Obj(overrides))
  }

  /** The as-written merge loses a shorthand: `upload(url, file, 'form')`
      still sends multipart and carries a stray "0" option. */
  lemma UploadShorthandLost()
    ensures Get(UploadConfigAsWritten(Str("form")), "contentType") == Str(MultipartContentType)
    ensures "0" in UploadConfigAsWritten(Str("form"))
  {
    var spread := Spread(Str("form"));
    assert "contentType" !in spread by {
      assert !IsDigit("contentType"[0]);
    }
    assert "0" in spread by {
      assert NatToString(0) == "0";
    }
    var overrides := UploadDefaults + spread;
    assert overrides["contentType"] == Str(MultipartContentType);
    assert "0" in overrides;
  }

  /** With the shorthand honoured, a string names the upload's content type,
      the loading default stays on, and no stray option appears. */
  lemma UploadShorthandHonoured(s: string)
    ensures Get(UploadConfig(Str(s)), "contentType") == Str(s)
    ensures Get(UploadConfig(Str(s)), "showLoading") == Bool(true)
    ensures "0" !in UploadConfig(Str(s))
  {
    assert "0" !in Defaults;
  }

  /** The verb's own merged configuration. */
  function VerbConfig(verb: Verb, config: Value): (r: Options)
    ensures Defaults.Keys <= r.Keys
    ensures verb.PostVerb? || verb.PostFormVerb? ==> r.Keys == MergeConfig(config).Keys
    ensures verb.PostVerb? || verb.PostFormVerb? ==>
              forall k :: k in MergeConfig(config) && k != "contentType" ==> r[k] == MergeConfig(config)[k]
    ensures verb.PostVerb? ==> r["contentType"] == Or(MergeConfig(config)["contentType"], Str(DefaultContentType))
    ensures verb.PostVerb? ==> Truthy(r["contentType"])
    ensures verb.PostFormVerb? ==> r["contentType"] == Str(FormContentType)
    ensures verb.UploadVerb? ==> r == UploadConfigAsWritten(config)
    ensures verb.GetVerb? || verb.PostAutoVerb? || verb.PutVerb? || verb.DeleteVerb? ==> r == MergeConfig(config)
  {
    match verb
    case PostVerb =>
      var m := MergeConfig(config);
      if !Truthy(Get(m, "contentType")) then m["contentType" := Str(DefaultContentType)] else m
    case PostFormVerb => MergeConfig(config)["contentType" := Str(FormContentType)]
    case UploadVerb => UploadConfigAsWritten(config)
    case _ => MergeConfig(config)
  }

  /** GET and DELETE carry their payload as query params, the others as a body. */
  predicate SendsParams(verb: Verb) {
    verb.GetVerb? || verb.DeleteVerb?
  }

  function MethodName(verb: Verb): string {
    match verb
    case GetVerb => "GET"
    case DeleteVerb => "DELETE"
    case PutVerb => "PUT"
    case _ => "POST"
  }

  /** The options object a verb function passes to `request()`: method, url
      and the payload (as `params` for GET and DELETE, as `data` otherwise),
      with the merged configuration spread over them, so that it wins on
      every key it has. */
  function Assemble(verb: Verb, url: string, payload: Value, merged: Options): (r: Options)
    ensures r.Keys == merged.Keys + {"method", "url", if SendsParams(verb) then "params" else "data"}
    ensures forall k :: k in merged ==> r[k] == merged[k]
    ensures "method" !in merged ==> r["method"] == Str(MethodName(verb))
    ensures "url" !in merged ==> r["url"] == Str(url)
    ensures SendsParams(verb) && "params" !in merged ==> r["params"] == payload
    ensures !SendsParams(verb) && "data" !in merged ==> r["data"] == payload
    ensures SendsParams(verb) && "data" !in merged ==> "data" !in r
  {
    var payloadKey := if SendsParams(verb) then "params" else "data";
    assert "method"[0] != "params"[0] && "method"[0] != "data"[0] && "url"[0] != "params"[0] && "url"[0] != "data"[0];
    assert "method"[0] != "url"[0];
    var base := map["method" := Str(MethodName(verb)), "url" := Str(url)][payloadKey := payload];
    assert SendsParams(verb) ==> "data" !in base by {
      assert "data"[0] != "params"[0];
    }
    base + merged
  }

  /** A verb function's call of `request()`; an omitted config is `{}`. The
      options carry every default option, and the method and url unless the
      config names them itself. */
  function VerbOptions(verb: Verb, url: string, payload: Value, config: Value): (r: Options)
    ensures config == Undefined ==> r == Assemble(verb, url, payload, VerbConfig(verb, Obj(map[])))
    ensures config != Undefined ==> r == Assemble(verb, url, payload, VerbConfig(verb, config))
    ensures Defaults.Keys <= r.Keys
  {
    Assemble(verb, url, payload, VerbConfig(verb, if config == Undefined then Obj(map[]) else config))
  }

  /** A body request whose options hold no headers is shaped by its content
      type alone. */
  lemma ShapeFreshBody(verb: Verb, url: string, data: Value, merged: Options, qs: FormEncoder)
    requires !SendsParams(verb) && Truthy(data)
    requires "data" !in merged && "headers" !in merged
    ensures var options := Assemble(verb, url, data, merged);
            var e := EncodingFor(RequestedContentType(merged));
            var r := PrepareRequest(options, qs);
            && r.Some?
            && Get(r.value, "data") == EncodeBody(e, data, qs)
            && Get(r.value, "headers") == Obj(map["Content-Type" := HeaderFor(e)])
            && forall k :: k in merged ==> Get(r.value, k) == merged[k]
  {
    var options := Assemble(verb, url, data, merged);
    assert "headers" !in options by {
      assert "headers"[0] != "method"[0] && "headers"[0] != "url"[0] && "headers"[0] != "data"[0];
    }
    assert Get(options, "contentType") == Get(merged, "contentType");
  }

  /** `postForm` with a body sends it form-encoded under the form header,
      whatever content type the config named. */
  lemma PostFormEncodesBody(url: string, data: Value, m: map<string, Value>, qs: FormEncoder)
    requires Truthy(data)
    requires "data" !in m && "headers" !in m
    ensures var r := PrepareRequest(VerbOptions(PostFormVerb, url, data, Obj(m)), qs);
            && r.Some?
            && Get(r.value, "data") == Str(qs(data))
            && Get(r.value, "headers") == Obj(map["Content-Type" := Str(FormContentType)])
  {
    var merged := VerbConfig(PostFormVerb, Obj(m));
    PostFormMerged(m);
    ShapeFreshBody(PostFormVerb, url, data, merged, qs);
  }

  /** `postForm`'s merged config names the form type and, for a config
      without them, none of the request's own fields. */
  lemma PostFormMerged(m: map<string, Value>)
    requires "data" !in m && "headers" !in m
    ensures var merged := VerbConfig(PostFormVerb, Obj(m));
            && "data" !in merged && "headers" !in merged
            && RequestedContentType(merged) == Str(FormContentType)
  {
    RequestFieldsAreNotOptions();
  }

  /** `post` with the default config sends its body as it is, under the JSON
      header. */
  lemma PostDefaultsToJson(url: string, data: Value, qs: FormEncoder)
    requires Truthy(data)
    ensures var r := PrepareRequest(VerbOptions(PostVerb, url, data, Undefined), qs);
            && r.Some?
            && Get(r.value, "data") == data
            && Get(r.value, "headers") == Obj(map["Content-Type" := Str(DefaultContentType)])
  {
    var merged := VerbConfig(PostVerb, Obj(map[]));
    MergeEmptyIsDefaults();
    assert merged == Defaults;
    RequestFieldsAreNotOptions();
    assert RequestedContentType(merged) == Str(DefaultContentType);
    assert EncodingFor(Str(DefaultContentType)) == AsRequested(Str(DefaultContentType)) by {
      assert DefaultContentType[0] != "form"[0] && DefaultContentType[0] != MultipartContentType[0];
    }
    ShapeFreshBody(PostVerb, url, data, merged, qs);
  }

  /** `upload` with no config of its own: the default table with loading on
      and the multipart content type. */
  lemma UploadDefaultConfig()
    ensures var merged := VerbConfig(UploadVerb, Obj(map[]));
            && merged.Keys == Defaults.Keys
            && merged["contentType"] == Str(MultipartContentType)
            && merged["showLoading"] == Bool(true)
  {
    assert VerbConfig(UploadVerb, Obj(map[])) == UploadConfig(Obj(map[]));
  }

  /** `upload` with the default config sends its body as it is under the
      multipart header, with the loading indicator on. */
  lemma UploadSendsMultipart(url: string, data: Value, qs: FormEncoder)
    requires Truthy(data)
    ensures var r := PrepareRequest(VerbOptions(UploadVerb, url, data, Undefined), qs);
            && r.Some?
            && Get(r.value, "data") == data
            && Get(r.value, "headers") == Obj(map["Content-Type" := Str(MultipartContentType)])
            && Get(r.value, "showLoading") == Bool(true)
  {
    var merged := VerbConfig(UploadVerb, Obj(map[]));
    UploadDefaultConfig();
    RequestFieldsAreNotOptions();
    assert "data" !in merged && "headers" !in merged;
    assert RequestedContentType(merged) == Str(MultipartContentType);
    assert EncodingFor(Str(MultipartContentType)) == Multipart by {
      assert MultipartContentType[0] != FormContentType[0] && MultipartContentType[0] != "form"[0];
    }
    ShapeFreshBody(UploadVerb, url, data, merged, qs);
  }

  /** `get` carries its payload as query params and no body, so the shaping
      leaves its options exactly as built. */
  lemma GetIsNotShaped(url: string, params: Value, m: map<string, Value>, qs: FormEncoder)
    requires "data" !in m
    ensures PrepareRequest(VerbOptions(GetVerb, url, params, Obj(m)), qs) == Some(VerbOptions(GetVerb, url, params, Obj(m)))
  {
    RequestFieldsAreNotOptions();
  }
}

=== FILE: js_value.dfy ===
/**
  The fragment of JavaScript's value space that the HTTP layer inspects:
  option objects, request bodies, server payloads. Numbers are integers
  only; arrays, functions and class instances are not distinguished from
  plain objects.
 */
module JsValue {

  datatype Value =
    | Undefined
    | Null
    | Bool(b: bool)
    | Num(n: int)
    | Str(s: string)
    | Obj(fields: map<string, Value>)

  /** JavaScript's ToBoolean: what `if (v)` and `v || w` test. */
  predicate Truthy(v: Value) {
    match v
    case Undefined => false
    case Null => false
    case Bool(b) => b
    case Num(n) => n != 0
    case Str(s) => s != ""
    case Obj(_) => true
  }

  /** `a || b`: the first operand when it is truthy, the second otherwise. */
  function Or(a: Value, b: Value): (r: Value)
    ensures Truthy(a) ==> r == a
    ensures !Truthy(a) ==> r == b
  {
    if Truthy(a) then a else b
  }

  /** Property read `o[k]` on a plain object: a missing key reads as undefined. */
  function Get(o: map<string, Value>, k: string): (r: Value)
    ensures k in o ==> r == o[k]
    ensures k !in o ==> r == Undefined
  {
    if k in o then o[k] else Undefined
  }

  /** `{...v}` inside an object literal: the own enumerable properties of `v`.
      A string spreads into its characters under the keys "0", "1", ...;
      every other primitive spreads into nothing. */
  function Spread(v: Value): (m: map<string, Value>)
    ensures v.Obj? ==> m == v.fields
    ensures !v.Obj? && !v.Str? ==> m == map[]
    ensures v.Str? ==> forall k :: k in m ==> IsDigits(k)
    ensures v.Str? ==> |m| <= |v.s|
  {
    match v
    case Obj(fields) => fields
    case Str(s) => SpreadChars(s, 0)
    case _ => map[]
  }

  /** The index-keyed properties of the string `s` from position `i` on. */
  function SpreadChars(s: string, i: nat): (m: map<string, Value>)
    ensures forall k :: k in m ==> IsDigits(k)
    ensures i <= |s| ==> |m| <= |s| - i
    ensures i >= |s| ==> m == map[]
    decreases |s| - i
  {
    if i >= |s| then map[]
    else SpreadChars(s, i + 1)[NatToString(i) := Str([s[i]])]
  }

  /** Each character of a spread string sits under its own index, from
      position `i` on; distinct indices render as distinct keys, so no later
      character overwrites an earlier one. */
  lemma {:induction false} SpreadCharsIndices(s: string, i: nat)
    ensures forall j :: i <= j < |s| ==> NatToString(j) in SpreadChars(s, i) && SpreadChars(s, i)[NatToString(j)] == Str([s[j]])
    decreases |s| - i
  {
    if i < |s| {
      SpreadCharsIndices(s, i + 1);
      forall j | i < j < |s|
        ensures NatToString(j) != NatToString(i)
      {
        assert DigitsValue(NatToString(j)) != DigitsValue(NatToString(i));
      }
    }
  }

  /** `{...s}` for a string `s`: character `s[i]` under the key `String(i)`. */
  lemma SpreadStringIndices(s: string)
    ensures forall i :: 0 <= i < |s| ==> NatToString(i) in Spread(Str(s)) && Spread(Str(s))[NatToString(i)] == Str([s[i]])
  {
    SpreadCharsIndices(s, 0);
  }

  predicate IsDigit(c: char) {
    '0' <= c <= '9'
  }

  predicate IsDigits(s: string) {
    |s| >= 1 && forall i :: 0 <= i < |s| ==> IsDigit(s[i])
  }

  /** The numeric value of a string of decimal digits. */
  function DigitsValue(s: string): nat
    requires forall i :: 0 <= i < |s| ==> IsDigit(s[i])
  {
    if |s| == 0 then 0
    else
      assert IsDigit(s[|s| - 1]);
      10 * DigitsValue(s[..|s| - 1]) + (s[|s| - 1] as int - '0' as int)
  }

  /** Decimal rendering of a non-negative number, as in a template literal. */
  function NatToString(n: nat): (s: string)
    ensures IsDigits(s)
    ensures DigitsValue(s) == n
    ensures n < 10 <==> |s| == 1
  {
    if n < 10 then [('0' as int + n) as char]
    else
      var s := NatToString(n / 10) + [('0' as int + n % 10) as char];
      assert s[..|s| - 1] == NatToString(n / 10);
      s
  }

  /** Two distinct numbers never render alike: `status` can be read back from
      a message built around it. */
  lemma NatToStringInjective(a: nat, b: nat)
    requires NatToString(a) == NatToString(b)
    ensures a == b
  {
  }

  /** `s.startsWith(p)`. */
  predicate StartsWith(s: string, p: string) {
    |p| <= |s| && s[..|p|] == p
  }

  /** `s.includes(p)`. */
  predicate Contains(s: string, p: string)
    decreases |s|
  {
    StartsWith(s, p) || (|s| > 0 && Contains(s[1..], p))
  }

  /** `includes` finds exactly the substrings that occur at some offset. */
  lemma {:induction false} ContainsAt(s: string, p: string)
    ensures Contains(s, p) <==> exists i :: 0 <= i <= |s| - |p| && StartsWith(s[i..], p)
    decreases |s|
  {
    assert s[0..] == s;
    if |s| > 0 {
      ContainsAt(s[1..], p);
      if Contains(s[1..], p) {
        var i :| 0 <= i <= |s[1..]| - |p| && StartsWith(s[1..][i..], p);
        assert s[1..][i..] == s[i + 1..];
      }
      if exists i :: 0 <= i <= |s| - |p| && StartsWith(s[i..], p) {
        var i :| 0 <= i <= |s| - |p| && StartsWith(s[i..], p);
        if i > 0 {
          assert s[1..][i - 1..] == s[i..];
        }
      }
    } else {
      if exists i :: 0 <= i <= |s| - |p| && StartsWith(s[i..], p) {
        var i :| 0 <= i <= |s| - |p| && StartsWith(s[i..], p);
        assert i == 0;
      }
    }
  }
}

=== FILE: loading.dfy ===
/**
  The global loading indicator, shared by every request that asks for it.
  A reference count decides when the visual primitive is called: it is shown
  when the first such request starts and hidden when the last one settles.
  The counter and the emitted calls are returned rather than performed.
 */
module Loading {
  import opened JsValue

  /** A call on the visual primitive. */
  datatype Event = ShowIndicator(options: Value) | HideIndicator

  /** `loadingCount`. */
  datatype Counter = Counter(count: int)

  /** The counter after an operation and the visual calls it made, in order. */
  datatype Step = Step(counter: Counter, events: seq<Event>)

  /** The module starts with no request holding the indicator. */
  const Initial: Counter := Counter(0)

  /** The settings the indicator is shown with: the parameter default
      `options = {}` replaces an undefined argument by an empty object. */
  function Shown(options: Value): Value {
    if options.Undefined? then Obj(map[]) else options
  }

  /** `showLoading(options)`: always counts the request; calls the visual
      primitive only when no other request held the indicator, with the
      given settings or, when they are undefined, with `{}`. */
  function ShowLoading(c: Counter, options: Value): (r: Step)
    ensures r.counter.count == c.count + 1
    ensures c.count == 0 && !options.Undefined? ==> r.events == [ShowIndicator(options)]
    ensures c.count == 0 && options.Undefined? ==> r.events == [ShowIndicator(Obj(map[]))]
    ensures c.count != 0 ==> r.events == []
  {
    Step(Counter(c.count + 1), if c.count == 0 then [ShowIndicator(Shown(options))] else [])
  }

  /** `hideLoading()`: does nothing at zero or below; otherwise releases one
      holder and hides the indicator exactly when none is left. */
  function HideLoading(c: Counter): (r: Step)
    ensures c.count <= 0 ==> r == Step(c, [])
    ensures c.count > 0 ==> r.counter.count == c.count - 1
    ensures c.count > 0 ==> (r.events == [HideIndicator] <==> r.counter.count == 0)
    ensures r.events == [] || r.events == [HideIndicator]
    ensures c.count >= 0 ==> r.counter.count >= 0
  {
    if c.count <= 0 then Step(c, [])
    else
      var next := Counter(c.count - 1);
      Step(next, if next.count == 0 then [HideIndicator] else [])
  }

  /** A request that acquires and then releases the indicator leaves the
      counter where it found it. */
  lemma ShowThenHideRestores(c: Counter, options: Value)
    requires c.count >= 0
    ensures HideLoading(ShowLoading(c, options).counter).counter == c
  {
  }

  /** One acquisition or release, as interleaved requests issue them. */
  datatype Op = Acquire(options: Value) | Release

  function Apply(c: Counter, op: Op): Step {
    match op
    case Acquire(options) => ShowLoading(c, options)
    case Release => HideLoading(c)
  }

  /** The counter and all visual calls after a sequence of operations. */
  function Run(start: Counter, ops: seq<Op>): Step
    decreases |ops|
  {
    if |ops| == 0 then Step(start, [])
    else
      var prev := Run(start, ops[..|ops| - 1]);
      var last := Apply(prev.counter, ops[|ops| - 1]);
      Step(last.counter, prev.events + last.events)
  }

  /** Visual calls alternate show, hide, show, ... */
  predicate Alternates(events: seq<Event>) {
    forall i :: 0 <= i < |events| ==> (events[i].ShowIndicator? <==> i % 2 == 0)
  }

  /** Under any interleaving of acquisitions and releases, the counter never
      goes negative, show and hide are never called twice in a row, and the
      indicator is up (an odd number of calls) exactly when the counter is
      positive. */
  lemma {:induction false} RunInvariant(ops: seq<Op>)
    ensures var t := Run(Initial, ops);
      && t.counter.count >= 0
      && Alternates(t.events)
      && (t.counter.count > 0 <==> |t.events| % 2 == 1)
    decreases |ops|
  {
    if |ops| > 0 {
      RunInvariant(ops[..|ops| - 1]);
    }
  }

  /** Running two sequences one after the other is running their concatenation. */
  lemma {:induction false} RunAppend(start: Counter, a: seq<Op>, b: seq<Op>)
    ensures var ta := Run(start, a);
            var tb := Run(ta.counter, b);
            Run(start, a + b) == Step(tb.counter, ta.events + tb.events)
    decreases |b|
  {
    if |b| == 0 {
      assert a + b == a;
    } else {
      var ab := a + b;
      var b' := b[..|b| - 1];
      assert ab[..|ab| - 1] == a + b';
      assert ab[|ab| - 1] == b[|b| - 1];
      RunAppend(start, a, b');
      var ta := Run(start, a);
      var tb' := Run(ta.counter, b');
      var last := Apply(tb'.counter, b[|b| - 1]);
      assert Run(start, ab) == Step(last.counter, (ta.events + tb'.events) + last.events);
      assert Run(ta.counter, b) == Step(last.counter, tb'.events + last.events);
      assert (ta.events + tb'.events) + last.events == ta.events + (tb'.events + last.events);
    }
  }

  function Repeat(op: Op, n: nat): (ops: seq<Op>)
    ensures |ops| == n
    ensures forall i :: 0 <= i < n ==> ops[i] == op
  {
    if n == 0 then [] else Repeat(op, n - 1) + [op]
  }

  /** `n` acquisitions from a counter `c` raise it to `c + n`, calling show
      only if `c` was zero. */
  lemma {:induction false} AcquireBurst(c: nat, options: Value, n: nat)
    ensures Run(Counter(c), Repeat(Acquire(options), n))
         == Step(Counter(c + n), if c == 0 && n > 0 then [ShowIndicator(Shown(options))] else [])
  {
    if n > 0 {
      AcquireBurst(c, options, n - 1);
      assert Repeat(Acquire(options), n)[..n - 1] == Repeat(Acquire(options), n - 1);
    }
  }

  /** `n` releases from a counter of at least `n` lower it by `n`, calling
      hide only if it reaches zero. */
  lemma {:induction false} ReleaseBurst(c: nat, n: nat)
    requires n <= c
    ensures Run(Counter(c), Repeat(Release, n))
         == Step(Counter(c - n), if n == c && n > 0 then [HideIndicator] else [])
  {
    if n > 0 {
      ReleaseBurst(c, n - 1);
      assert Repeat(Release, n)[..n - 1] == Repeat(Release, n - 1);
    }
  }

  /** `n` concurrent requests that all start before any settles bring the
      counter back to zero with exactly one show and one hide. */
  lemma BalancedBurst(options: Value, n: nat)
    requires n > 0
    ensures var t := Run(Initial, Repeat(Acquire(options), n) + Repeat(Release, n));
            t.counter == Initial && t.events == [ShowIndicator(Shown(options)), HideIndicator]
  {
    RunAppend(Initial, Repeat(Acquire(options), n), Repeat(Release, n));
    AcquireBurst(0, options, n);
    ReleaseBurst(n, n);
  }
}

=== FILE: pending.dfy ===
/**
  Duplicate-request suppression. Every dispatched request is fingerprinted
  by its url, method and serialised params and body; the registry maps a
  fingerprint to the cancellation handle of the request that holds it.
  A second request with a fingerprint already held is cancelled at once,
  and the one in flight carries on.
 */
module Pending {
  import opened JsValue
  import opened Wrappers

  /** A cancellation handle: an opaque identity and whether its cancel
      function has already been called. */
  datatype CancelToken = CancelToken(id: nat, cancelled: bool)

  /** The request fields the interceptors read or write. */
  datatype RequestConfig = RequestConfig(
    url: string,
    verb: string,
    params: Value,
    data: Value,
    headers: map<string, Value>,
    cancelToken: Option<CancelToken>)

  /** `pendingMap`. */
  type Registry = map<string, CancelToken>

  /** `JSON.stringify`, left uninterpreted. */
  type Serializer = Value -> string

  /** `getPendingKey`: the four parts joined with '&'. */
  function PendingKey(c: RequestConfig, json: Serializer): (k: string)
    ensures |k| == |c.url| + |c.verb| + |json(c.params)| + |json(c.data)| + 3
    ensures k[..|c.url|] == c.url && k[|c.url|] == '&'
    ensures var v := |c.url| + 1;
            k[v..v + |c.verb|] == c.verb && k[v + |c.verb|] == '&'
    ensures var p := |c.url| + |c.verb| + 2;
            k[p..p + |json(c.params)|] == json(c.params) && k[p + |json(c.params)|] == '&'
    ensures k[|k| - |json(c.data)|..] == json(c.data)
  {
    c.url + "&" + c.verb + "&" + json(c.params) + "&" + json(c.data)
  }

  /** Two requests to one url with the same params and body but different
      methods hold different fingerprints, so neither cancels the other. */
  lemma PendingKeyDistinguishesMethod(c1: RequestConfig, c2: RequestConfig, json: Serializer)
    requires c1.url == c2.url && c1.params == c2.params && c1.data == c2.data
    requires c1.verb != c2.verb
    ensures PendingKey(c1, json) != PendingKey(c2, json)
  {
    var v := |c1.url| + 1;
    if |c1.verb| == |c2.verb| {
      assert PendingKey(c1, json)[v..v + |c1.verb|] != PendingKey(c2, json)[v..v + |c2.verb|];
    }
  }

  /** The fingerprint depends on nothing but url, method, params and body. */
  lemma PendingKeyDeterministic(c1: RequestConfig, c2: RequestConfig, json: Serializer)
    requires c1.url == c2.url && c1.verb == c2.verb
    requires c1.params == c2.params && c1.data == c2.data
    ensures PendingKey(c1, json) == PendingKey(c2, json)
  {
  }

  /** The fingerprint is not injective: an '&' inside the url makes two
      different requests share one fingerprint. */
  lemma PendingKeyCollides(json: Serializer)
    ensures var c1 := RequestConfig("a&b", "get", Undefined, Undefined, map[], None);
            var c2 := RequestConfig("a", "b&get", Undefined, Undefined, map[], None);
            c1 != c2 && PendingKey(c1, json) == PendingKey(c2, json)
  {
    assert "a&b" + "&" + "get" == "a" + "&" + "b&get";
  }

  /** A registry together with the request as the interceptor leaves it. */
  datatype Admitted = Admitted(pending: Registry, config: RequestConfig)

  /** `addPending`: a new fingerprint is registered under a new handle
      unless the caller supplied a handle of its own; a fingerprint already
      held gets the new request a handle that is cancelled from the start.
      `handleId` is the identity of the handle the call constructs. */
  function AddPending(pending: Registry, c: RequestConfig, json: Serializer, handleId: nat): (r: Admitted)
    ensures var key := PendingKey(c, json);
      && (key !in pending && c.cancelToken.None? ==>
            && r.pending == pending[key := CancelToken(handleId, false)]
            && r.config.cancelToken == Some(CancelToken(handleId, false)))
      && (key !in pending && c.cancelToken.Some? ==> r == Admitted(pending, c))
      && (key in pending ==>
            && r.pending == pending
            && r.config.cancelToken == Some(CancelToken(handleId, true)))
    ensures r.config == c.(cancelToken := r.config.cancelToken)
  {
    var key := PendingKey(c, json);
    if key !in pending then
      if c.cancelToken.Some? then Admitted(pending, c)
      else
        var token := CancelToken(handleId, false);
        Admitted(pending[key := token], c.(cancelToken := Some(token)))
    else
      Admitted(pending, c.(cancelToken := Some(CancelToken(handleId, true))))
  }

  /** `removePending`: the request's fingerprint is gone afterwards and every
      other entry is as it was. */
  function RemovePending(pending: Registry, c: RequestConfig, json: Serializer): (r: Registry)
    ensures PendingKey(c, json) !in r
    ensures forall k :: k != PendingKey(c, json) ==> (k in r <==> k in pending)
    ensures forall k :: k in r ==> r[k] == pending[k]
  {
    var key := PendingKey(c, json);
    if key in pending then pending - {key} else pending
  }

  /** Removing twice is removing once. */
  lemma RemovePendingIdempotent(pending: Registry, c: RequestConfig, json: Serializer)
    ensures RemovePending(RemovePending(pending, c, json), c, json) == RemovePending(pending, c, json)
  {
  }

  /** A request admitted under a new fingerprint and then released leaves the
      registry exactly as it found it. */
  lemma AddThenRemoveRestores(pending: Registry, c: RequestConfig, json: Serializer, handleId: nat)
    requires PendingKey(c, json) !in pending
    ensures RemovePending(AddPending(pending, c, json, handleId).pending, c, json) == pending
  {
    var key := PendingKey(c, json);
    var after := RemovePending(AddPending(pending, c, json, handleId).pending, c, json);
    assert after.Keys == pending.Keys;
  }

  /** Single flight: of two requests with one fingerprint, the second is
      cancelled on arrival and the first keeps its live entry. */
  lemma SingleFlight(pending: Registry, c1: RequestConfig, c2: RequestConfig,
                     json: Serializer, f1: nat, f2: nat)
    requires PendingKey(c1, json) == PendingKey(c2, json)
    requires PendingKey(c1, json) !in pending
    requires c1.cancelToken.None?
    ensures var a1 := AddPending(pending, c1, json, f1);
            var a2 := AddPending(a1.pending, c2, json, f2);
            && a1.config.cancelToken == Some(CancelToken(f1, false))
            && a2.config.cancelToken == Some(CancelToken(f2, true))
            && a2.pending == a1.pending
            && a2.pending[PendingKey(c1, json)] == CancelToken(f1, false)
  {
  }

  /** The request-phase interceptor: duplicate tracking, then a bearer
      `Authorization` header when the token store holds a non-empty token. */
  function RequestInterceptor(pending: Registry, c: RequestConfig, token: Option<string>,
                              json: Serializer, handleId: nat): (r: Admitted)
    ensures r.pending == AddPending(pending, c, json, handleId).pending
    ensures r.config.cancelToken == AddPending(pending, c, json, handleId).config.cancelToken
    ensures token.Some? && token.value != "" ==>
              r.config.headers == c.headers["Authorization" := Str("Bearer " + token.value)]
    ensures token.None? || token.value == "" ==> r.config.headers == c.headers
    ensures r.config.url == c.url && r.config.verb == c.verb
    ensures r.config.params == c.params && r.config.data == c.data
  {
    var a := AddPending(pending, c, json, handleId);
    if token.Some? && token.value != "" then
      a.(config := a.config.(headers := a.config.headers["Authorization" := Str("Bearer " + token.value)]))
    else a
  }
}

=== FILE: responses.dfy ===
/**
  The two response-phase interceptors as classifiers. Each takes the
  registry and what the transport delivered, and returns how the request
  settles, the registry afterwards, and the session side effects the
  interceptor performs (token removal, navigation to the login page).
 */
module Responses {
  import opened JsValue
  import opened Wrappers
  import opened Pending
  import Router

  /** The server's JSON body. `code`, `status` and `success` are compared
      strictly, so they keep their JSON type; an absent field is `Undefined`.
      `message` and `msg` are read for their text, and an empty text counts
      as absent wherever the source tests them with `||`. */
  datatype Body = Body(
    code: Value,
    status: Value,
    success: Value,
    data: Value,
    message: Option<string>,
    msg: Option<string>)

  /** What the interceptor rejects with, that is, what `axiosInstance(options)`
      settles with: a cancellation handed on untouched, or an `Error` carrying
      a message. */
  datatype Rejection = CancelPassThrough(reason: string) | Normalized(message: string)

  /** What the interceptor resolves with: the body's own `data`, or the whole
      body when it has none. */
  datatype Payload = Inner(data: Value) | Whole(body: Body)

  datatype Settlement = Resolved(payload: Payload) | Rejected(error: Rejection)

  /** A session side effect of the error interceptor. */
  datatype SideEffect = RemoveToken | PushLogin(redirect: string)

  datatype Settled = Settled(outcome: Settlement, pending: Registry, effects: seq<SideEffect>)

  /** `router.currentRoute.value`. */
  datatype CurrentRoute = CurrentRoute(path: string, fullPath: string)

  /** `error.response`: the HTTP status and the body, `None` when falsy. */
  datatype ErrorResponse = ErrorResponse(status: nat, body: Option<Body>)

  /** What the transport rejects with: a cancellation (`axios.isCancel`), or
      an error that may carry the request's config and the server's response. */
  datatype RequestError =
    | Cancel(reason: string)
    | Failed(config: Option<RequestConfig>, response: Option<ErrorResponse>, message: string)

  const BusinessFailure: string := "请求失败"
  const GenericFailure: string := "请求失败，请稍后重试"
  const SessionExpired: string := "登录已过期，请重新登录"
  const TimeoutMessage: string := "请求超时"
  const NetworkMessage: string := "网络错误"

  /** The fixed messages for the statuses the interceptor knows besides 401. */
  const StatusMessages: map<nat, string> := map[
    400 := "请求参数错误",
    403 := "无权访问",
    404 := "请求的资源不存在",
    500 := "服务器内部错误"
  ]

  /** The business-status conventions, any one of which marks success. */
  predicate Accepted(b: Body) {
    b.code == Num(200) || b.code == Num(0) || b.status == Num(200) || b.success == Bool(true)
  }

  /** `data.message || data.msg`, when either is non-empty. */
  function BodyMessage(b: Body): (r: Option<string>)
    ensures r.Some? <==> (b.message.Some? && b.message.value != "") || (b.msg.Some? && b.msg.value != "")
    ensures r.Some? ==> r.value != ""
    ensures b.message.Some? && b.message.value != "" ==> r == b.message
    ensures (b.message.None? || b.message.value == "") ==> r == (if b.msg.Some? && b.msg.value != "" then b.msg else None)
  {
    if b.message.Some? && b.message.value != "" then b.message
    else if b.msg.Some? && b.msg.value != "" then b.msg
    else None
  }

  /** The success callback: release the fingerprint, then accept and unwrap,
      or reject with the body's message. */
  function OnFulfilled(pending: Registry, config: RequestConfig, body: Body, json: Serializer): (r: Settled)
    ensures PendingKey(config, json) !in r.pending
    ensures r.pending == RemovePending(pending, config, json)
    ensures r.effects == []
    ensures r.outcome.Resolved? <==> Accepted(body)
    ensures Accepted(body) && body.data != Undefined ==> r.outcome == Resolved(Inner(body.data))
    ensures Accepted(body) && body.data == Undefined ==> r.outcome == Resolved(Whole(body))
    ensures !Accepted(body) && BodyMessage(body).Some? ==> r.outcome == Rejected(Normalized(BodyMessage(body).value))
    ensures !Accepted(body) && BodyMessage(body).None? ==> r.outcome == Rejected(Normalized(BusinessFailure))
  {
    var released := RemovePending(pending, config, json);
    if Accepted(body) then
      Settled(Resolved(if body.data != Undefined then Inner(body.data) else Whole(body)), released, [])
    else
      Settled(Rejected(Normalized(BodyMessage(body).GetOr(BusinessFailure))), released, [])
  }

  /** The status-derived message for every status but 401. */
  function StatusMessage(status: nat): (m: string)
    ensures status in StatusMessages ==> m == StatusMessages[status]
    ensures status !in StatusMessages ==> m == "请求失败(" + NatToString(status) + ")"
    ensures m != ""
  {
    if status in StatusMessages then StatusMessages[status]
    else "请求失败(" + NatToString(status) + ")"
  }

  /** The message of a rejected request that got an HTTP response, and the
      session side effects: 401 expires the session and sends the user to
      the login page unless already there; a non-empty body message wins
      over the status-derived one. */
  function HttpStatusFailure(resp: ErrorResponse, current: CurrentRoute): (r: (string, seq<SideEffect>))
    ensures r.0 != ""
    ensures resp.body.Some? && BodyMessage(resp.body.value).Some? ==> r.0 == BodyMessage(resp.body.value).value
    ensures (resp.body.None? || BodyMessage(resp.body.value).None?) ==>
              r.0 == (if resp.status == 401 then SessionExpired else StatusMessage(resp.status))
    ensures resp.status == 401 && current.path != Router.LoginPath ==> r.1 == [RemoveToken, PushLogin(current.fullPath)]
    ensures resp.status == 401 && current.path == Router.LoginPath ==> r.1 == [RemoveToken]
    ensures resp.status != 401 ==> r.1 == []
  {
    var (statusMsg, effects) :=
      if resp.status == 401 then
        (SessionExpired, [RemoveToken] + (if current.path != Router.LoginPath then [PushLogin(current.fullPath)] else []))
      else
        (StatusMessage(resp.status), []);
    var bodyMsg := if resp.body.Some? then BodyMessage(resp.body.value) else None;
    (if bodyMsg.Some? then bodyMsg.value else statusMsg, effects)
  }

  /** The classification of a failure without a response by the text of
      its message. The interceptor computes it and then discards it. */
  function NetworkClassification(message: string): (m: string)
    ensures Contains(message, "timeout") ==> m == TimeoutMessage
    ensures !Contains(message, "timeout") && Contains(message, "Network") ==> m == NetworkMessage
    ensures !Contains(message, "timeout") && !Contains(message, "Network") ==> m == GenericFailure
  {
    if Contains(message, "timeout") then TimeoutMessage
    else if Contains(message, "Network") then NetworkMessage
    else GenericFailure
  }

  /** The message of a rejected request that got no HTTP response. */
  function NetworkFailure(message: string): (m: string)
    ensures message != "" ==> m == message
    ensures message == "" ==> m == GenericFailure
  {
    // The classification (`NetworkClassification`) is computed and then
    // overwritten by the raw message; see `TimeoutClassificationDiscarded`.
    if message != "" then message else GenericFailure
  }

  /** The error callback: a cancellation passes through and keeps its
      fingerprint; every other failure releases the fingerprint when the
      error carries its config, and is normalized. */
  function OnRejected(pending: Registry, err: RequestError, current: CurrentRoute, json: Serializer): (r: Settled)
    ensures err.Cancel? ==> r == Settled(Rejected(CancelPassThrough(err.reason)), pending, [])
    ensures err.Failed? ==> r.outcome.Rejected? && r.outcome.error.Normalized?
    ensures err.Failed? && err.config.Some? ==> r.pending == RemovePending(pending, err.config.value, json)
    ensures err.Failed? && err.config.None? ==> r.pending == pending
    ensures err.Failed? && err.response.Some? ==>
              var (m, effects) := HttpStatusFailure(err.response.value, current);
              r.outcome == Rejected(Normalized(m)) && r.effects == effects
    ensures err.Failed? && err.response.None? ==>
              r.outcome == Rejected(Normalized(NetworkFailure(err.message))) && r.effects == []
  {
    match err
    case Cancel(reason) => Settled(Rejected(CancelPassThrough(reason)), pending, [])
    case Failed(config, response, message) =>
      var released := if config.Some? then RemovePending(pending, config.value, json) else pending;
      if response.Some? then
        var (m, effects) := HttpStatusFailure(response.value, current);
        Settled(Rejected(Normalized(m)), released, effects)
      else
        Settled(Rejected(Normalized(NetworkFailure(message))), released, [])
  }

  /** Every failure the caller sees, other than a cancellation, carries a
      non-empty message. */
  lemma NormalizedMessagesNonEmpty(pending: Registry, config: RequestConfig, body: Body,
                                   err: RequestError, current: CurrentRoute, json: Serializer)
    ensures var r := OnFulfilled(pending, config, body, json);
            r.outcome.Rejected? ==> r.outcome.error.Normalized? && r.outcome.error.message != ""
    ensures var r := OnRejected(pending, err, current, json);
            r.outcome.Rejected? && r.outcome.error.Normalized? ==> r.outcome.error.message != ""
  {
  }

  /** The timeout classification never reaches the caller: a message naming a
      timeout is surfaced verbatim, not as the timeout message. */
  lemma TimeoutClassificationDiscarded(pending: Registry, config: Option<RequestConfig>,
                                       message: string, current: CurrentRoute, json: Serializer)
    requires Contains(message, "timeout")
    ensures NetworkClassification(message) == TimeoutMessage
    ensures OnRejected(pending, Failed(config, None, message), current, json).outcome
         == Rejected(Normalized(message))
    ensures message != TimeoutMessage
  {
    ContainsAt(message, "timeout");
    var i :| 0 <= i <= |message| - |"timeout"| && StartsWith(message[i..], "timeout");
    assert message[i] == 't';
  }

  /** A 404 without a body message rejects with the fixed not-found text and
      touches neither the token nor the route. */
  lemma NotFoundMessage(pending: Registry, config: Option<RequestConfig>, message: string,
                        current: CurrentRoute, json: Serializer)
    ensures var r := OnRejected(pending, Failed(config, Some(ErrorResponse(404, None)), message), current, json);
            r.outcome == Rejected(Normalized("请求的资源不存在")) && r.effects == []
  {
  }

  /** Whatever way a dispatched request settles (other than as a
      cancellation), its fingerprint is free again afterwards. */
  lemma SettlementReleasesFingerprint(pending: Registry, config: RequestConfig, body: Body,
                                      response: Option<ErrorResponse>, message: string,
                                      current: CurrentRoute, json: Serializer)
    ensures PendingKey(config, json) !in OnFulfilled(pending, config, body, json).pending
    ensures PendingKey(config, json) !in OnRejected(pending, Failed(Some(config), response, message), current, json).pending
  {
  }

  /** The single-flight life cycle: a request is admitted; an identical one
      arrives while it is in flight and is cancelled on the spot; its
      cancellation settles without touching the original's entry; the
      original then settles with a config that fingerprints like the one
      registered; and a retry after that is admitted afresh. */
  lemma SingleFlightLifecycle(pending: Registry, c: RequestConfig, settled: RequestConfig, body: Body,
                              json: Serializer, current: CurrentRoute, f1: nat, f2: nat, f3: nat)
    requires PendingKey(c, json) !in pending
    requires c.cancelToken.None?
    requires PendingKey(settled, json) == PendingKey(c, json)
    ensures var first := AddPending(pending, c, json, f1);
            var dup := AddPending(first.pending, c, json, f2);
            var dupSettled := OnRejected(dup.pending, Cancel("duplicate"), current, json);
            var firstSettled := OnFulfilled(dupSettled.pending, settled, body, json);
            var retry := AddPending(firstSettled.pending, c, json, f3);
            && first.config.cancelToken == Some(CancelToken(f1, false))
            && dup.config.cancelToken == Some(CancelToken(f2, true))
            && dupSettled.pending == first.pending
            && firstSettled.pending == pending
            && retry.config.cancelToken == Some(CancelToken(f3, false))
  {
    AddThenRemoveRestores(pending, c, json, f1);
  }

  /** The release is keyed by the config the callback receives. When that
      config no longer fingerprints like the one registered (axios has
      replaced an object body by its JSON text, whose own JSON text differs),
      the original's entry is never released: it stays with its live handle,
      and every later identical request is cancelled as a duplicate. */
  lemma ReleaseUnderOtherKeyLeaksEntry(pending: Registry, c: RequestConfig, settled: RequestConfig, body: Body,
                                       json: Serializer, f1: nat, f3: nat)
    requires PendingKey(c, json) !in pending
    requires c.cancelToken.None?
    requires PendingKey(settled, json) != PendingKey(c, json)
    ensures var first := AddPending(pending, c, json, f1);
            var firstSettled := OnFulfilled(first.pending, settled, body, json);
            var retry := AddPending(firstSettled.pending, c, json, f3);
            && PendingKey(c, json) in firstSettled.pending
            && firstSettled.pending[PendingKey(c, json)] == CancelToken(f1, false)
            && retry.pending == firstSettled.pending
            && retry.config.cancelToken == Some(CancelToken(f3, true))
  {
  }

  /** The status message names the status: no two statuses share a text,
      whether they come from the table or from the `请求失败(<status>)`
      template. */
  lemma StatusMessageInjective(a: nat, b: nat)
    requires StatusMessage(a) == StatusMessage(b)
    ensures a == b
  {
    var prefix := "请求失败(";
    if a !in StatusMessages && b !in StatusMessages {
      var sa := NatToString(a);
      var sb := NatToString(b);
      assert |sa| == |sb|;
      assert sa == (prefix + sa + ")")[|prefix|..|prefix| + |sa|];
      assert sb == (prefix + sb + ")")[|prefix|..|prefix| + |sb|];
      NatToStringInjective(a, b);
    } else if a in StatusMessages && b in StatusMessages {
      assert StatusMessages[400][0] == '请' && StatusMessages[400][2] == '参';
      assert StatusMessages[404][0] == '请' && StatusMessages[404][2] == '的';
      assert StatusMessages[403][0] == '无' && StatusMessages[500][0] == '服';
    } else {
      if a in StatusMessages {
        TemplateIsNotTabled(b, a);
      } else {
        TemplateIsNotTabled(a, b);
      }
      assert false;
    }
  }

  /** A templated status message never equals a message from the table. */
  lemma TemplateIsNotTabled(x: nat, y: nat)
    requires x !in StatusMessages && y in StatusMessages
    ensures StatusMessage(x) != StatusMessage(y)
  {
    var m := StatusMessage(x);
    assert m[0] == '请' && m[2] == '失';
    assert StatusMessages[400][2] == '参' && StatusMessages[404][2] == '的';
    assert StatusMessages[403][0] == '无' && StatusMessages[500][0] == '服';
  }
}

=== FILE: router.dfy ===
/**
  The global navigation guard. For the route being entered it decides the
  document title and how `next` is called: straight through, or off to the
  login page with the requested path kept for the return trip. The token
  is read by the caller and passed in; a missing or empty token is absent.
 */
module Router {
  import opened JsValue
  import opened Wrappers

  const AppTitle: string := "管理系统"
  const LoginPath: string := "/login"

  /** The parts of the target route the guard reads: its full path and the
      `title` and `requiresAuth` entries of its meta. */
  datatype Target = Target(fullPath: string, title: Option<string>, requiresAuth: Value)

  /** The single call the guard makes on `next`. */
  datatype NextCall = Proceed | Redirect(path: string, redirect: string)

  datatype Decision = Decision(title: string, next: NextCall)

  predicate HasToken(token: Option<string>) {
    token.Some? && token.value != ""
  }

  /** The document title: the page's own title ahead of the application name
      when it has one. */
  function PageTitle(title: Option<string>): (t: string)
    ensures title.Some? && title.value != "" ==> t == title.value + " - " + AppTitle
    ensures title.None? || title.value == "" ==> t == AppTitle
  {
    if title.Some? && title.value != "" then title.value + " - " + AppTitle else AppTitle
  }

  /** `router.beforeEach`. */
  function BeforeEach(to: Target, token: Option<string>): (d: Decision)
    ensures d.title == PageTitle(to.title)
    ensures d.next == Proceed <==> !Truthy(to.requiresAuth) || HasToken(token)
    ensures d.next != Proceed ==> d.next == Redirect(LoginPath, to.fullPath)
  {
    var next :=
      if Truthy(to.requiresAuth) then
        if HasToken(token) then Proceed else Redirect(LoginPath, to.fullPath)
      else Proceed;
    Decision(PageTitle(to.title), next)
  }

  /** Every title ends in the application name, and a page title, when
      present, can be read back from its front. */
  lemma TitleNamesApplication(title: Option<string>)
    ensures var t := PageTitle(title);
            && |t| >= |AppTitle| && t[|t| - |AppTitle|..] == AppTitle
            && (title.Some? && title.value != "" ==> t[..|title.value|] == title.value)
  {
    var t := PageTitle(title);
    if title.Some? && title.value != "" {
      assert t == (title.value + " - ") + AppTitle;
    }
  }

  /** A page that needs no login is entered whatever the token. */
  lemma OpenPagesAlwaysProceed(to: Target, t1: Option<string>, t2: Option<string>)
    requires !Truthy(to.requiresAuth)
    ensures BeforeEach(to, t1) == BeforeEach(to, t2)
    ensures BeforeEach(to, t1).next == Proceed
  {
  }

  /** On a protected page the token alone decides, and an empty token is no
      token: the user is sent to log in and brought back to the page after. */
  lemma EmptyTokenRedirects(to: Target)
    requires Truthy(to.requiresAuth)
    ensures BeforeEach(to, Some("")) == BeforeEach(to, None)
    ensures BeforeEach(to, None).next == Redirect(LoginPath, to.fullPath)
  {
  }
}

=== FILE: wrappers.dfy ===
/** Optional values, used wherever the source tests a field for presence. */
module Wrappers {

  /** A value that may be missing. */
  datatype Option<+T> = None | Some(value: T) {

    function GetOr(default: T): T {
      match this
      case Some(v) => v
      case None => default
    }
  }
}
